=== FILE: README.md ===
# Password vault: access gates and versioned credential store

A Dafny model of the core of a multi-tenant password vault, a NestJS and
Prisma backend. Accounts register with email and password, or sign in
through Google. Each account owns one tenant and stores credential entries
(`device` or `application` passwords). Every overwrite of an entry's secret
keeps the superseded value in an append-only history. Every vault route sits
behind two gates. JwtAuthGuard checks the session token. MasterPasswordGuard
checks that the account has a master password stored.

The database is one immutable value, `Model.State`. It holds users, tenants,
entries, each entry's history (oldest first), and the next autoincrement ids.
Every service method is a pure function from a state to a `Result`. A failure
is `Err`, and the caller keeps the state it started with. Each Prisma
`$transaction` is one state step. bcrypt and the JWT signer are the
uninterpreted values of `Crypto.Primitives`. The proofs assume only `Sound`
about them: a hash verifies against its own password, a hash is never
empty, and no password verifies against an empty stored hash (bcrypt rejects
a malformed hash). The identity the JWT strategy produces from a token is an input,
`Option<Principal>`, where `None` means the token was rejected.

Modules follow the source files:

| module | models |
|---|---|
| `Model` | the database rows, the state invariant `Valid`, Prisma's key-order lookup |
| `Dto` | CreatePasswordDto and UpdatePasswordDto with their validation rules |
| `PasswordsService` | src/passwords/passwords.service.ts |
| `PasswordsProperties` | the store's invariants, timeline, cascade and isolation lemmas |
| `AuthService` | src/auth/auth.service.ts |
| `AuthController` | src/auth/auth.controller.ts (master-password endpoints, error mapping) |
| `AuthProperties` | registration, login and master-gate lemmas |
| `Http`, `Guards` | Nest's exception answer, JwtAuthGuard, src/auth/guards/master-password.guard.ts |
| `PasswordsController` | src/passwords/passwords.controller.ts |
| `Scenarios` | whole request sequences through the controllers |

The model follows the code, including:

- Registering an email that is already taken is an `Unauthorized` error (401).
- A missing or foreign entry is `BadRequest("Password not found")` in the service. Every passwords route turns it into its own fixed 500.
- createPassword finds "the same entry" with a Prisma `where` clause. Prisma drops filters whose value is undefined. So a body without `url` or `accountName` matches stored entries whatever their url or account name (`PasswordsProperties.AbsentUrlVersionsStoredUrl`). The full identity tuple is used only when both fields are supplied (`PasswordsProperties.FullTupleLookup`).
- getPasswords filters by owner only, not by tenant.
- Stored entries are compared to a candidate by plain equality. Account passwords are compared through bcrypt.

## Model

| member | source | states |
|---|---|---|
| `Model.FirstKey` | src/passwords/passwords.service.ts:58-67 | Prisma's `findFirst`/`findUnique` as a scan in id order: a result is the lowest id in range whose row matches, and no result means no row in range matches |
| `Model.Reverse` | src/passwords/passwords.service.ts:206-213 | `orderBy createdAt desc` over rows kept in insertion order: same length, and position i holds the i-th row from the end |
| `Model.OtherEntryKept` | src/passwords/passwords.service.ts:151-178 | the frame of one versioning transaction: every other entry keeps its presence, value and history |
| `Model.FindUserByEmail` | src/auth/auth.service.ts:22-24 | a found id is an account with that email; when none is found, no account below the next id has it |
| `Model.FindUserByEmailExact` | src/auth/auth.service.ts:22-28 | in a valid state the email lookup fails exactly when no account has the email, and otherwise finds the one account that has it |
| `Dto.CreateViolations` | src/passwords/dto/create-password.dto.ts:4-23 | a create body is rejected for category iff it is not "device"/"application", for name iff empty, for password iff empty, and never for url or accountName; no violation iff the body is valid |
| `Dto.UpdateViolations` | src/passwords/dto/update-password.dto.ts:4-18 | an update body is rejected only for an empty password; name, url and accountName are optional |
| `PasswordsService.FindExisting` | src/passwords/passwords.service.ts:58-67 | the lookup returns the lowest-id entry the where-clause selects, or none when no entry below the next id is selected |
| `PasswordsService.Supersede` | src/passwords/passwords.service.ts:71-99 | one versioning transaction: the timeline grows by exactly the new secret, and no other entry, history, user or tenant changes |
| `PasswordsService.GetPasswords` | src/passwords/passwords.service.ts:13-36 | the rows returned are exactly the stored entries whose owner is the user, any tenant, each at most once; the state is untouched |
| `PasswordsService.CreatePassword` | src/passwords/passwords.service.ts:38-126 | fails with "User not found" / "User has no tenant assigned" (no state) exactly for a missing user or a falsy tenant id; otherwise the stored entry has the caller as owner, the caller's tenant, the body's category, name and secret, and only that entry changed |
| `PasswordsService.Apply` | src/passwords/passwords.service.ts:161-175 | an update sets the secret, sets name/url/accountName only when supplied, and keeps owner, tenant and category |
| `PasswordsService.UpdatePassword` | src/passwords/passwords.service.ts:128-186 | fails with "Password not found" exactly when the caller does not own the entry; otherwise the timeline grows by the new secret and only that entry changes |
| `PasswordsService.GetPasswordHistory` | src/passwords/passwords.service.ts:188-221 | fails with "Password not found" exactly when not owned; otherwise returns exactly that entry's history rows, newest first |
| `PasswordsService.VerifyPassword` | src/passwords/passwords.service.ts:223-253 | fails with "Password not found" exactly when not owned; otherwise isMatch iff the candidate equals the current secret, with the matching message |
| `PasswordsService.DeletePassword` | src/passwords/passwords.service.ts:255-291 | fails with "Password not found" exactly when not owned; otherwise the entry and all its history rows are gone, and nothing else changes |
| `PasswordsProperties.CreateBranches` | src/passwords/passwords.service.ts:57-121 | if some entry matches, the first match gets one history row holding its old secret and only its secret changes (even to an equal value); otherwise a new entry with the next id and no history |
| `PasswordsProperties.CreatePreservesValid` | src/passwords/passwords.service.ts:102-118 | createPassword keeps the invariants: entries filed under their owner's tenant, history only for live entries, ids below the next |
| `PasswordsProperties.UpdatePreservesValid` | src/passwords/passwords.service.ts:151-178 | updatePassword keeps the invariants |
| `PasswordsProperties.DeletePreservesValid` | src/passwords/passwords.service.ts:272-283 | deletePassword keeps the invariants: the history cascade leaves no orphan rows |
| `PasswordsProperties.RepeatedCreateTimeline` | src/passwords/passwords.service.ts:69-121 | starting from a state where no entry matches the key, after a run of createPassword calls with that key, one entry exists; its current secret is the last value written and its history holds every earlier value, in order, none lost or repeated |
| `PasswordsProperties.DeleteThenNotFound` | src/passwords/passwords.service.ts:272-283 | after a delete, history, verify, update and delete of that id all fail with "Password not found", and no history rows remain |
| `PasswordsProperties.SupersededValueDoesNotVerify` | src/passwords/passwords.service.ts:240-241 | a value found only in the history does not match |
| `PasswordsProperties.ForeignLooksMissing` | src/passwords/passwords.service.ts:138-148 | an entry owned by someone else gets the same answer as an id that does not exist, for update, history, verify and delete |
| `PasswordsProperties.ForeignEntriesUntouched` | src/passwords/passwords.service.ts:151-178 | no create, update or delete by one user changes another owner's entries or their history |
| `PasswordsProperties.FullTupleLookup` | src/passwords/passwords.service.ts:58-67 | with url and accountName supplied, the lookup selects exactly the entries equal on (userId, tenantId, category, name, url, accountName) |
| `PasswordsProperties.AbsentUrlVersionsStoredUrl` | src/passwords/passwords.service.ts:58-67 | a body without a url versions a stored entry that has one |
| `Http.Respond` | src/auth/auth.controller.ts:127-130 | a rethrown error reaches Nest's exception layer: a BadRequest is answered 400, an Unauthorized 401, each with its own message, and a Prisma not-found (a non-HTTP error) 500 "Internal server error" |
| `Guards.JwtAuthGuard` | src/passwords/passwords.controller.ts:10 | a request passes with exactly the verified identity, or is refused with 401 |
| `Guards.CanActivate` | src/auth/guards/master-password.guard.ts:8-22 | allows iff the account exists and its stored password is non-empty; otherwise "Master password not set..." |
| `Guards.GateIgnoresPasswordValue` | src/auth/guards/master-password.guard.ts:17-21 | any two non-empty stored passwords get the same answer: the gate checks presence only |
| `PasswordsController.Authorize` | src/passwords/passwords.controller.ts:10 | the guard chain passes exactly when the token verified and the master password is set; a missing token is refused first |
| `PasswordsController.Create` | src/passwords/passwords.controller.ts:14-25 | a guard denial is answered with that guard's 401 and an invalid body with 400; past both, the answer is the service's result for the caller's id alone, and any service failure becomes "Failed to create password" |
| `PasswordsController.List` | src/passwords/passwords.controller.ts:26-36 | a guard denial is answered with that guard's 401; past both gates, exactly the caller's entries, each id once |
| `PasswordsController.Update` | src/passwords/passwords.controller.ts:38-57 | a guard denial is answered with that guard's 401 and an invalid body with 400; past both, the answer is the service's result for (caller id, caller tenant), and any service failure becomes "Failed to update password" |
| `PasswordsController.History` | src/passwords/passwords.controller.ts:59-73 | a guard denial is answered with that guard's 401; past both gates, the service's history for (caller id, caller tenant), and any service failure becomes "Failed to fetch password history" |
| `PasswordsController.Verify` | src/passwords/passwords.controller.ts:75-94 | a guard denial is answered with that guard's 401; past both gates, the service's verdict for (caller id, caller tenant), and any service failure becomes "Failed to verify password" |
| `PasswordsController.Delete` | src/passwords/passwords.controller.ts:96-110 | a guard denial is answered with that guard's 401; past both gates, the service's delete for (caller id, caller tenant), and any service failure becomes "Failed to delete password" |
| `PasswordsController.DeniedRoutesNeverReachStore` | src/passwords/passwords.controller.ts:10 | when a guard denies, the five routes with a body or an id answer that guard's error, whatever the body or id (`List` states the same in its own contract) |
| `PasswordsController.ForeignEntryIsServerError` | src/passwords/passwords.controller.ts:51-56 | past both gates, an entry the caller does not own is answered with the route's 500 on update, history, verify and delete |
| `AuthService.AddAccount` | src/auth/auth.service.ts:34-45 | the new account takes the next user id and is bound to a new tenant named after the email; entries are untouched |
| `AuthService.Register` | src/auth/auth.service.ts:17-62 | "Email already registered" exactly when the email lookup finds an account; otherwise the stored account holds the hash of the password, the reply omits it, and the token is signed over {email, sub: id} |
| `AuthService.ValidateUser` | src/auth/auth.service.ts:64-85 | a returned user has the email, the password verifies against its stored hash, and the password is left out; null otherwise |
| `AuthService.Login` | src/auth/auth.service.ts:87-102 | the token is signed over {email, sub: id}, and hasMasterPassword is always true |
| `AuthService.VerifyLoginPassword` | src/auth/auth.service.ts:104-129 | "User not found" exactly for a missing account; otherwise isMatch iff the candidate verifies against the stored hash, with the matching message |
| `AuthService.GoogleLogin` | src/auth/auth.service.ts:131-177 | rejects a request without a Google user; a known email leaves the state as it was; an unknown one gets exactly one new account (empty password, next id) on one new tenant named "<email>'s Tenant", and no other account or tenant changes; hasMasterPassword iff the stored password is non-empty |
| `AuthController.SetupMasterPassword` | src/auth/auth.controller.ts:111-131 | a missing or empty password is "Password is required" with no write; a missing account is Prisma's not-found error; for an existing account and a non-empty password it succeeds, and only the caller's password column changes, to the hash |
| `AuthController.CheckMasterPassword` | src/auth/auth.controller.ts:133-149 | reports true exactly when the master gate would let the account through |
| `AuthController.RegisterError` | src/auth/auth.controller.ts:27-39 | an Unauthorized failure keeps 401 and its message; any other failure becomes 500 "Registration failed due to server error" |
| `AuthController.Register` | src/auth/auth.controller.ts:20-40 | the endpoint fails exactly for a known email, with 401 "Email already registered"; a success is the service's registration |
| `AuthController.Login` | src/auth/auth.controller.ts:42-65 | 401 "Invalid credentials" exactly when validateUser returns null; otherwise exactly the service's login result for the validated user: its token signed over {email, sub}, with hasMasterPassword set |
| `AuthController.VerifyPassword` | src/auth/auth.controller.ts:67-75 | a rejected token is 401; a missing account becomes 401 "Failed to verify password"; an existing account gets the service's verdict |
| `AuthController.SetupRoute` | src/auth/auth.controller.ts:111-131 | behind the token guard only; an empty body is 400 "Password is required", a missing account a 500 "Internal server error"; an existing account with a non-empty password succeeds with "Master password set successfully", and only its password column changes, to the hash |
| `AuthProperties.RegisterAddsOneAccount` | src/auth/auth.service.ts:22-45 | in a valid state register fails exactly when the email is taken; otherwise it adds one new account on one new tenant and keeps the state valid |
| `AuthProperties.RegisterThenLogin` | src/auth/auth.service.ts:30-80 | right after registering, validateUser with the same password returns the registered user, login's token is signed over the same claims {email, sub}, and the master gate allows |
| `AuthProperties.ValidateUserExact` | src/auth/auth.service.ts:64-80 | validateUser returns a user exactly when some account has the email and the password verifies against its hash |
| `AuthProperties.GoogleLoginPreservesValid` | src/auth/auth.service.ts:137-156 | googleLogin keeps the state valid, leaves a known account unmodified, and for an unknown one adds exactly one account and one tenant and changes no other, with no master password, so the gate denies it |
| `AuthProperties.SetupOpensGate` | src/auth/auth.controller.ts:119-126 | after a successful setup the state is still valid, the master gate allows the caller, and checkMasterPassword reports true |
| `Scenarios.RouterScenario` | src/passwords/passwords.service.ts:57-121 | register, create "abc", create "xyz" under the same key, then delete: the same entry holds "xyz" with history ["abc"], and after the delete the history is not found |
| `Scenarios.GoogleAccountLockedUntilSetup` | src/auth/guards/master-password.guard.ts:17-21 | a new Google account is refused by the vault's guard chain (so by every vault route) until it sets a master password; right after, the chain passes and a valid create request succeeds |
| `AuthProperties.VerifyAfterRegister` | src/auth/auth.service.ts:104-124 | right after registering, the login-password re-check with the same password matches |
| `AuthProperties.VerifyAfterSetup` | src/auth/auth.controller.ts:111-126 | setup succeeds for any existing account and non-empty password, and the login-password re-check then matches that password |
| `AuthProperties.GoogleAccountHasNoPasswordLogin` | src/auth/auth.service.ts:142-155 | a new Google account stores an empty password, so validateUser rejects every password for it |

## Left out

- bcrypt and JWT signing and verification, with the 24-hour expiry and the signing secret. These are library calls, modelled as the uninterpreted `Crypto.Primitives`. bcrypt's random salt is not modelled: `hash` is a function of the password.
- `Crypto.Primitives.sign` ignores the issue time. The real signer stamps `iat` and `exp`, so two tokens over the same claims issued at different times differ. The model states only the claims a token is signed over.
- The JWT strategy that turns a token into `req.user` (src/auth/jwt.strategy.ts) is not part of this model. Its outcome is the `Option<Principal>` input.
- `Guards.Principal` always carries a numeric tenant id. The token's claims are only `{email, sub}`, so `req.user.tenantId` exists only if the strategy looks it up. If it were undefined, Prisma would drop the tenant filter in the four ownership lookups (update, history, verify, delete), and the model does not cover that case.
- The Prisma client, SQL, isolation levels, and the race between the lookup before a transaction and the transaction itself. Each service call is one atomic step. Storage failures are not modelled, so the 500 branches for "any other failure" are reached only by the failures the model has.
- `createdAt`/`updatedAt` timestamps. History order is append order. "Newest first" assumes the clock never runs backwards and that no two history rows of one entry share a `createdAt`; on such a tie the database's order is unspecified, while the model still returns reverse append order.
- History record ids and their `passwordId` column. An entry's history is the sequence of its values.
- Prisma's `findFirst` without `orderBy` has no defined order. The model picks the lowest id.
- An explicit JSON `null` for url or accountName (which `@IsOptional` lets through) is not modelled. An optional field is either a string or absent.
- Undeclared extra body fields, which ValidationPipe passes through, and `parseInt` of route ids: ids are naturals, and bodies are exactly their declared fields.
- The 400 from ValidationPipe is modelled as a bare 400 "Bad Request". A route rejects a body exactly when `Dto.CreateViolations` or `Dto.UpdateViolations` lists a failing property, but that list and class-validator's message texts are not carried in the answer.
- RegisterDto, LoginDto and VerifyPasswordDto are not part of this model, so the register, login and verify bodies are taken unvalidated.
- The Google OAuth redirect and cookie handling, CORS and bootstrap, module wiring, the database test script, logging, and the `include: { user }` projections. These are I/O and wiring.
- The `check-master-password` route's token guard: `AuthController.CheckMasterPassword` models the handler for an identity that has passed the guard.

=== FILE: auth_controller.dfy ===
/** AuthController: the master-password endpoints, which talk to the
    database directly, and the mapping of service failures to HTTP answers. */
module AuthController {
  import opened Wrappers
  import opened Model
  import opened Crypto
  import opened Http
  import opened Guards
  import Service = AuthService

  const PasswordRequired := BadRequest("Password is required")
  const MasterSetMessage := "Master password set successfully"
  const RegisterFailed := HttpError(500, "Registration failed due to server error")
  const InvalidCredentials := HttpError(401, "Invalid credentials")
  const VerifyFailed := HttpError(401, "Failed to verify password")

  /** setupMasterPassword: store the hash of a non-empty password in the
      caller's password column. `password` is `None` when the body has none. */
  function SetupMasterPassword(s: State, c: Primitives, userId: Id, password: Option<string>)
    : (r: Result<(State, string), Failure>)
    ensures password.None? || password.value == "" ==> r == Err(PasswordRequired)
    ensures password.Some? && password.value != "" && userId !in s.users ==> r == Err(RecordNotFound)
    ensures password.Some? && password.value != "" && userId in s.users ==> r.Ok?
    ensures r.Ok? ==>
      var (s2, msg) := r.value;
      && msg == MasterSetMessage
      && userId in s.users
      && s2.users == s.users[userId := s.users[userId].(password := c.hash(password.value))]
      && s2.(users := s.users) == s
  {
    if password.None? || password.value == "" then Err(PasswordRequired)
    else if userId !in s.users then Err(RecordNotFound)
    else
      var u := s.users[userId];
      Ok((s.(users := s.users[userId := u.(password := c.hash(password.value))]), MasterSetMessage))
  }

  /** checkMasterPassword: `!!user?.password`. */
  function CheckMasterPassword(s: State, userId: Id): (r: bool)
    ensures r <==> CanActivate(s, userId).Ok?
  {
    userId in s.users && s.users[userId].password != ""
  }

  /** POST /auth/register: the service's Unauthorized keeps its 401 and
      message; any other failure becomes a generic 500. */
  function RegisterError(f: Failure): (r: HttpError)
    ensures f.Unauthorized? ==> r == HttpError(401, f.message)
    ensures !f.Unauthorized? ==> r == RegisterFailed
  {
    if f.Unauthorized? then HttpError(401, f.message) else RegisterFailed
  }

  function Register(s: State, c: Primitives, email: string, password: string, name: string)
    : (r: Result<(State, Service.Registration), HttpError>)
    ensures r.Err? <==> FindUserByEmail(s, email).Some?
    ensures r.Err? ==> r.error == HttpError(401, "Email already registered")
    ensures r.Ok? ==> Ok(r.value) == Service.Register(s, c, email, password, name)
  {
    match Service.Register(s, c, email, password, name)
    case Ok(v) => Ok(v)
    case Err(f) => Err(RegisterError(f))
  }

  /** POST /auth/login: a null from validateUser is a 401 "Invalid credentials". */
  function Login(s: State, c: Primitives, email: string, password: string): (r: Result<Service.LoginResult, HttpError>)
    ensures r.Err? <==> Service.ValidateUser(s, c, email, password).None?
    ensures r.Err? ==> r.error == InvalidCredentials
    ensures r.Ok? ==> r.value.hasMasterPassword && r.value.user == Service.ValidateUser(s, c, email, password).value
    ensures r.Ok? ==> r.value == Service.Login(c, Service.ValidateUser(s, c, email, password).value)
  {
    match Service.ValidateUser(s, c, email, password)
    case None => Err(InvalidCredentials)
    case Some(user) => Ok(Service.Login(c, user))
  }

  /** POST /auth/verify-password: behind JwtAuthGuard; any service failure
      becomes a 401 "Failed to verify password". */
  function VerifyPassword(s: State, c: Primitives, identity: Option<Principal>, password: string)
    : (r: Result<Verdict, HttpError>)
    ensures identity.None? ==> r == Err(TokenRejected)
    ensures identity.Some? && identity.value.id !in s.users ==> r == Err(VerifyFailed)
    ensures identity.Some? && identity.value.id in s.users ==>
      r == Ok(Service.VerifyLoginPassword(s, c, identity.value.id, password).value)
    ensures r.Ok? ==> Ok(r.value) == Service.VerifyLoginPassword(s, c, identity.value.id, password)
  {
    var p :- JwtAuthGuard(identity);
    match Service.VerifyLoginPassword(s, c, p.id, password)
    case Ok(v) => Ok(v)
    case Err(_) => Err(VerifyFailed)
  }

  /** POST /auth/setup-master-password: behind JwtAuthGuard only, so an
      account without a master password can reach it. */
  function SetupRoute(s: State, c: Primitives, identity: Option<Principal>, password: Option<string>)
    : (r: Result<(State, string), HttpError>)
    ensures identity.None? ==> r == Err(TokenRejected)
    ensures identity.Some? && (password.None? || password.value == "") ==> r == Err(HttpError(400, "Password is required"))
    ensures identity.Some? && password.Some? && password.value != "" && identity.value.id !in s.users ==>
      r == Err(HttpError(500, "Internal server error"))
    ensures identity.Some? && password.Some? && password.value != "" && identity.value.id in s.users ==> r.Ok?
    ensures r.Ok? ==>
      var (s2, msg) := r.value;
      && msg == MasterSetMessage
      && identity.value.id in s.users
      && s2.users == s.users[identity.value.id := s.users[identity.value.id].(password := c.hash(password.value))]
      && s2.(users := s.users) == s
  {
    var p :- JwtAuthGuard(identity);
    match SetupMasterPassword(s, c, p.id, password)
    case Ok(v) => Ok(v)
    case Err(f) => Err(Respond(f))
  }
}

=== FILE: auth_properties.dfy ===
/** Properties of the account side: registration keeps emails unique and
    binds each account to a fresh tenant, password login accepts what
    registration stored, and the master gate opens exactly once a master
    password is set. */
module AuthProperties {
  import opened Wrappers
  import opened Model
  import opened Crypto
  import opened Guards
  import opened AuthService
  import AuthController

  /** register fails exactly when some account already has the email, and
      otherwise adds one account on one new tenant, and nothing else. */
  lemma RegisterAddsOneAccount(s: State, c: Primitives, email: string, password: string, name: string)
    requires Valid(s)
    ensures Register(s, c, email, password, name).Err? <==> EmailTaken(s, email)
    ensures Register(s, c, email, password, name).Ok? ==>
      var (s2, reg) := Register(s, c, email, password, name).value;
      && Valid(s2)
      && reg.user.id !in s.users
      && reg.user.tenantId.Some? && reg.user.tenantId.value !in s.tenants
      && s2.users == s.users[reg.user.id := User(email, name, c.hash(password), reg.user.tenantId)]
      && s2.tenants == s.tenants[reg.user.tenantId.value := Tenant(email + "'s Tenant")]
      && s2.entries == s.entries && s2.history == s.history
  {
  }

  /** A fresh registration can log straight in with the same password, gets
      the same user back and a token signed over the same claims, and passes
      the master gate. */
  lemma RegisterThenLogin(s: State, c: Primitives, email: string, password: string, name: string)
    requires Valid(s) && Sound(c) && !EmailTaken(s, email)
    ensures Register(s, c, email, password, name).Ok?
    ensures
      var (s2, reg) := Register(s, c, email, password, name).value;
      && ValidateUser(s2, c, email, password) == Some(reg.user)
      && Login(c, reg.user).accessToken == reg.accessToken
      && CanActivate(s2, reg.user.id) == Ok(true)
  {
  }

  /** validateUser in a valid state: it returns a user exactly when an
      account has the email and the password verifies against its hash. */
  lemma ValidateUserExact(s: State, c: Primitives, email: string, password: string)
    requires Valid(s)
    ensures ValidateUser(s, c, email, password).Some? <==>
      exists id :: id in s.users && s.users[id].email == email && c.matches(password, s.users[id].password)
  {
  }

  /** googleLogin keeps the state valid; it leaves a known account as it is
      and creates an unknown one with no master password. */
  lemma GoogleLoginPreservesValid(s: State, c: Primitives, profile: Option<GoogleProfile>)
    requires Valid(s)
    ensures GoogleLogin(s, c, profile).Ok? ==> Valid(GoogleLogin(s, c, profile).value.0)
    ensures GoogleLogin(s, c, profile).Ok? && EmailTaken(s, profile.value.email) ==>
      GoogleLogin(s, c, profile).value.0 == s
    ensures GoogleLogin(s, c, profile).Ok? && !EmailTaken(s, profile.value.email) ==>
      var (s2, res) := GoogleLogin(s, c, profile).value;
      && res.user.id !in s.users
      && s2.users - {res.user.id} == s.users
      && s.nextTenantId !in s.tenants && s2.tenants - {s.nextTenantId} == s.tenants
      && !res.hasMasterPassword
      && !CanActivate(s2, res.user.id).Ok?
  {
  }

  /** Setting a master password keeps the state valid and changes only the
      caller's password column; afterwards the master gate lets them in. */
  lemma SetupOpensGate(s: State, c: Primitives, userId: Id, password: Option<string>)
    requires Valid(s) && Sound(c)
    ensures AuthController.SetupMasterPassword(s, c, userId, password).Ok? ==>
      var s2 := AuthController.SetupMasterPassword(s, c, userId, password).value.0;
      && Valid(s2)
      && CanActivate(s2, userId) == Ok(true)
      && AuthController.CheckMasterPassword(s2, userId)
  {
  }

  /** The re-check of the login password accepts the password just
      registered with. */
  lemma VerifyAfterRegister(s: State, c: Primitives, email: string, password: string, name: string)
    requires Sound(c) && Register(s, c, email, password, name).Ok?
    ensures
      var (s2, reg) := Register(s, c, email, password, name).value;
      VerifyLoginPassword(s2, c, reg.user.id, password) == Ok(Verdict(true, Matched))
  {
  }

  /** The re-check of the login password accepts the master password just
      set, and `AuthController.SetupMasterPassword` succeeds for any existing
      account given a non-empty password. */
  lemma VerifyAfterSetup(s: State, c: Primitives, userId: Id, password: string)
    requires Sound(c) && userId in s.users && password != ""
    ensures AuthController.SetupMasterPassword(s, c, userId, Some(password)).Ok?
    ensures
      var s2 := AuthController.SetupMasterPassword(s, c, userId, Some(password)).value.0;
      VerifyLoginPassword(s2, c, userId, password) == Ok(Verdict(true, Matched))
  {
  }

  /** An account created by Google sign-in stores no password hash, so no
      password logs into it until a master password is set. */
  lemma GoogleAccountHasNoPasswordLogin(s: State, c: Primitives, g: GoogleProfile, password: string)
    requires Valid(s) && Sound(c) && !EmailTaken(s, g.email)
    ensures GoogleLogin(s, c, Some(g)).Ok?
    ensures ValidateUser(GoogleLogin(s, c, Some(g)).value.0, c, g.email, password).None?
  {
  }
}

=== FILE: auth_service.dfy ===
/** AuthService: registration, password login, Google sign-in and the
    re-check of the login password. bcrypt and the JWT signer arrive as the
    `Primitives` value `c`. */
module AuthService {
  import opened Wrappers
  import opened Model
  import opened Crypto

  const EmailRegistered := Unauthorized("Email already registered")
  const UserNotFound := Unauthorized("User not found")
  const NoGoogleUser := Unauthorized("No user from Google")

  /** An account as the API returns it: every column except the password. */
  datatype PublicUser = PublicUser(id: Id, email: string, name: string, tenantId: Option<Id>)

  function Public(id: Id, u: User): PublicUser {
    PublicUser(id, u.email, u.name, u.tenantId)
  }

  datatype Registration = Registration(user: PublicUser, accessToken: string)
  datatype LoginResult = LoginResult(user: PublicUser, accessToken: string, hasMasterPassword: bool)

  /** The profile the Google strategy puts on the request. */
  datatype GoogleProfile = GoogleProfile(email: string, firstName: string, lastName: string)

  /** `jwtService.sign({ email: user.email, sub: user.id })`. */
  function TokenFor(c: Primitives, user: PublicUser): (t: string)
    ensures t == c.sign(Claims(user.email, user.id))
  {
    c.sign(Claims(user.email, user.id))
  }

  /** `prisma.user.create` with a nested `tenant.create`: a new account bound
      to a new tenant named after the email. */
  function AddAccount(s: State, email: string, name: string, password: string): (r: (State, Id))
    ensures var (s2, id) := r;
      && id == s.nextUserId && s2.nextUserId == id + 1
      && s2.users == s.users[id := User(email, name, password, Some(s.nextTenantId))]
      && s2.tenants == s.tenants[s.nextTenantId := Tenant(email + "'s Tenant")]
      && s2.nextTenantId == s.nextTenantId + 1
      && s2.entries == s.entries && s2.history == s.history && s2.nextEntryId == s.nextEntryId
  {
    var tenantId := s.nextTenantId;
    var id := s.nextUserId;
    (s.(tenants := s.tenants[tenantId := Tenant(email + "'s Tenant")],
        users := s.users[id := User(email, name, password, Some(tenantId))],
        nextTenantId := tenantId + 1,
        nextUserId := id + 1),
     id)
  }

  /** register: reject a known email, otherwise store the account with the
      hash of its password and issue a token for it. */
  function Register(s: State, c: Primitives, email: string, password: string, name: string)
    : (r: Result<(State, Registration), Failure>)
    ensures r.Err? <==> FindUserByEmail(s, email).Some?
    ensures r.Err? ==> r.error == EmailRegistered
    ensures r.Ok? ==>
      var (s2, reg) := r.value;
      && reg.user.id in s2.users
      && s2.users[reg.user.id] == User(email, name, c.hash(password), reg.user.tenantId)
      && reg.user == Public(reg.user.id, s2.users[reg.user.id])
      && reg.accessToken == c.sign(Claims(email, reg.user.id))
      && s2.entries == s.entries && s2.history == s.history
  {
    if FindUserByEmail(s, email).Some? then Err(EmailRegistered)
    else
      var (s2, id) := AddAccount(s, email, name, c.hash(password));
      var user := Public(id, s2.users[id]);
      Ok((s2, Registration(user, TokenFor(c, user))))
  }

  /** validateUser: the account with this email, without its password, when
      the password verifies against the stored hash. */
  function ValidateUser(s: State, c: Primitives, email: string, password: string): (r: Option<PublicUser>)
    ensures r.Some? ==>
      && r.value.id in s.users
      && s.users[r.value.id].email == email
      && c.matches(password, s.users[r.value.id].password)
      && r.value == Public(r.value.id, s.users[r.value.id])
    ensures r.None? ==>
      (FindUserByEmail(s, email).None? || !c.matches(password, s.users[FindUserByEmail(s, email).value].password))
  {
    match FindUserByEmail(s, email)
    case None => None
    case Some(id) =>
      if c.matches(password, s.users[id].password) then Some(Public(id, s.users[id])) else None
  }

  /** login: a token for the validated user. Password login always reports
      the master password as set. */
  function Login(c: Primitives, user: PublicUser): (r: LoginResult)
    ensures r.user == user
    ensures r.accessToken == c.sign(Claims(user.email, user.id))
    ensures r.hasMasterPassword
  {
    LoginResult(user, TokenFor(c, user), true)
  }

  /** verifyLoginPassword: compare a candidate with the stored hash. */
  function VerifyLoginPassword(s: State, c: Primitives, userId: Id, password: string): (r: Result<Verdict, Failure>)
    ensures r.Err? <==> userId !in s.users
    ensures r.Err? ==> r.error == UserNotFound
    ensures r.Ok? ==> (r.value.isMatch <==> c.matches(password, s.users[userId].password))
    ensures r.Ok? ==> r.value.message == (if r.value.isMatch then Matched else NotMatched)
  {
    if userId !in s.users then Err(UserNotFound)
    else Ok(VerdictOf(c.matches(password, s.users[userId].password)))
  }

  /** googleLogin: find the account by email, or create it with an empty
      password and a new tenant; report whether a master password is set. */
  function GoogleLogin(s: State, c: Primitives, profile: Option<GoogleProfile>): (r: Result<(State, LoginResult), Failure>)
    ensures r.Err? <==> profile.None?
    ensures r.Err? ==> r.error == NoGoogleUser
    ensures r.Ok? ==>
      var (s2, res) := r.value;
      && res.user.id in s2.users
      && res.user == Public(res.user.id, s2.users[res.user.id])
      && res.user.email == profile.value.email
      && res.accessToken == c.sign(Claims(profile.value.email, res.user.id))
      && (res.hasMasterPassword <==> s2.users[res.user.id].password != "")
      && s2.entries == s.entries && s2.history == s.history
    ensures r.Ok? && FindUserByEmail(s, profile.value.email).Some? ==>
      r.value.0 == s && r.value.1.user.id == FindUserByEmail(s, profile.value.email).value
    ensures r.Ok? && FindUserByEmail(s, profile.value.email).None? ==>
      var (s2, res) := r.value;
      && res.user.id == s.nextUserId
      && s2.users == s.users[res.user.id := User(profile.value.email, profile.value.firstName + " " + profile.value.lastName, "", Some(s.nextTenantId))]
      && s2.tenants == s.tenants[s.nextTenantId := Tenant(profile.value.email + "'s Tenant")]
      && s2.nextUserId == s.nextUserId + 1 && s2.nextTenantId == s.nextTenantId + 1
      && s2.nextEntryId == s.nextEntryId
      && !res.hasMasterPassword
  {
    if profile.None? then Err(NoGoogleUser)
    else
      var p := profile.value;
      var (s2, id) :=
        match FindUserByEmail(s, p.email)
        case Some(id) => (s, id)
        case None => AddAccount(s, p.email, p.firstName + " " + p.lastName, "");
      var user := Public(id, s2.users[id]);
      Ok((s2, LoginResult(user, TokenFor(c, user), s2.users[id].password != "")))
  }
}

=== FILE: crypto.dfy ===
/** bcrypt and the JWT signer, left uninterpreted.

    The model never computes a hash or a signature: every operation that needs one
    receives the three primitives as a value, and the only facts the proofs use
    about them are the ones `Sound` states. */
module Crypto {

  /** The claims every issued session token carries: `{email, sub}`. */
  datatype Claims = Claims(email: string, sub: nat)

  datatype Primitives = Primitives(
    hash: string -> string,             // bcrypt.hash(p, 10)
    matches: (string, string) -> bool,  // bcrypt.compare(p, h)
    sign: Claims -> string)             // jwtService.sign(payload)

  /** What the model assumes of bcrypt: the hash of `p` verifies against `p`,
      a bcrypt hash is never the empty string, and nothing verifies against
      the empty string. */
  ghost predicate Sound(c: Primitives) {
    && (forall p :: c.matches(p, c.hash(p)) && c.hash(p) != "")
    && (forall p :: !c.matches(p, ""))
  }
}

=== FILE: dto.dfy ===
/** The request bodies of the passwords routes and the class-validator rules
    the global ValidationPipe enforces on them. A body is exactly its declared
    fields; an optional field that is absent is `None`. */
module Dto {
  import opened Wrappers

  datatype CreateInput = CreateInput(
    category: string,
    name: string,
    url: Option<string>,
    accountName: Option<string>,
    password: string)

  datatype UpdateInput = UpdateInput(
    name: Option<string>,
    url: Option<string>,
    accountName: Option<string>,
    password: string)

  const Categories: set<string> := {"device", "application"}

  /** Whether the body satisfies every decorator of CreatePasswordDto. */
  predicate ValidCreate(d: CreateInput) {
    && d.category in Categories
    && d.name != ""
    && d.password != ""
  }

  /** Whether the body satisfies every decorator of UpdatePasswordDto: only
      the secret is required, and it must not be empty. */
  predicate ValidUpdate(d: UpdateInput) {
    d.password != ""
  }

  /** The properties ValidationPipe reports for a create body, in declaration
      order; the body is accepted when the list is empty. */
  function CreateViolations(d: CreateInput): (r: seq<string>)
    ensures "category" in r <==> d.category !in Categories
    ensures "name" in r <==> d.name == ""
    ensures "password" in r <==> d.password == ""
    ensures "url" !in r && "accountName" !in r
    ensures r == [] <==> ValidCreate(d)
  {
    (if d.category in Categories then [] else ["category"])
    + (if d.name != "" then [] else ["name"])
    + (if d.password != "" then [] else ["password"])
  }

  /** The properties ValidationPipe reports for an update body. */
  function UpdateViolations(d: UpdateInput): (r: seq<string>)
    ensures "password" in r <==> d.password == ""
    ensures "name" !in r && "url" !in r && "accountName" !in r
    ensures r == [] <==> ValidUpdate(d)
  {
    if d.password != "" then [] else ["password"]
  }
}

=== FILE: guards.dfy ===
/** What the HTTP layer sends back when a handler fails. */
module Http {
  import opened Model

  datatype HttpError = HttpError(status: nat, message: string)

  /** Nest's answer to an exception that reaches it: an HTTP exception keeps
      its own status and message, anything else becomes a plain 500. */
  function Respond(f: Failure): (r: HttpError)
    ensures f.BadRequest? <==> r.status == 400
    ensures f.Unauthorized? <==> r.status == 401
    ensures f.RecordNotFound? <==> r.status == 500
    ensures !f.RecordNotFound? ==> r.message == f.message
    ensures f.RecordNotFound? ==> r == HttpError(500, "Internal server error")
  {
    match f
    case BadRequest(m) => HttpError(400, m)
    case Unauthorized(m) => HttpError(401, m)
    case RecordNotFound => HttpError(500, "Internal server error")
  }
}

/** The two gates: JwtAuthGuard (identity) and MasterPasswordGuard (the vault
    has been unlocked once). */
module Guards {
  import opened Wrappers
  import opened Model
  import opened Http

  /** The identity the JWT strategy puts on `req.user` once a token verifies. */
  datatype Principal = Principal(id: Id, tenantId: Id)

  const TokenRejected := HttpError(401, "Unauthorized")
  const MasterNotSet := Failure.Unauthorized("Master password not set. Please set up your master password first.")

  /** JwtAuthGuard: `identity` is what verifying the bearer token yielded,
      `None` for a missing, malformed or expired token. */
  function JwtAuthGuard(identity: Option<Principal>): (r: Result<Principal, HttpError>)
    ensures r.Ok? <==> identity.Some?
    ensures r.Ok? ==> r.value == identity.value
    ensures r.Err? ==> r.error == TokenRejected
  {
    match identity
    case Some(p) => Ok(p)
    case None => Err(TokenRejected)
  }

  /** Whether the account has a master password: its password column is
      present and not empty. */
  predicate MasterSet(s: State, userId: Id) {
    userId in s.users && s.users[userId].password != ""
  }

  /** MasterPasswordGuard.canActivate: only the presence of a stored
      password is checked, never its value. */
  function CanActivate(s: State, userId: Id): (r: Result<bool, Failure>)
    ensures r.Ok? <==> MasterSet(s, userId)
    ensures r.Ok? ==> r.value
    ensures r.Err? ==> r.error == MasterNotSet
  {
    if userId !in s.users || s.users[userId].password == "" then Err(MasterNotSet)
    else Ok(true)
  }

  /** Presence only: two accounts whose stored passwords differ in any way
      are let through alike, as long as both are non-empty. */
  lemma GateIgnoresPasswordValue(s: State, a: Id, b: Id)
    requires a in s.users && b in s.users
    requires s.users[a].password != "" && s.users[b].password != ""
    ensures CanActivate(s, a) == CanActivate(s, b) == Ok(true)
  {
  }
}

=== FILE: model.dfy ===
/** The vault's database as one immutable value: accounts, tenants, credential
    entries and the per-entry history of superseded secrets. Ids are the
    autoincrement keys the database hands out, starting at 1. */
module Model {
  import opened Wrappers

  type Id = nat

  datatype Tenant = Tenant(name: string)

  /** An account. `password` is the bcrypt hash of the master password, or ""
      for an account created by Google sign-in that has not set one yet. */
  datatype User = User(email: string, name: string, password: string, tenantId: Option<Id>)

  /** A stored credential. `secret` is the current value, kept in clear. */
  datatype Entry = Entry(
    tenantId: Id,
    userId: Id,
    category: string,
    name: string,
    url: Option<string>,
    accountName: Option<string>,
    secret: string)

  /** A stored entry as the API returns it: the row's id with its columns. */
  datatype Row = Row(id: Id, entry: Entry)

  /** `history[id]` lists the values entry `id` held before each overwrite,
      oldest first; an id without a key has no history rows. */
  datatype State = State(
    users: map<Id, User>,
    tenants: map<Id, Tenant>,
    entries: map<Id, Entry>,
    history: map<Id, seq<string>>,
    nextUserId: Id,
    nextTenantId: Id,
    nextEntryId: Id)

  /** The exceptions the services throw, by their Nest class; `RecordNotFound`
      is the error Prisma raises when an `update` names a missing row. */
  datatype Failure = BadRequest(message: string) | Unauthorized(message: string) | RecordNotFound

  /** The `{isMatch, message}` answer of both password checks. */
  datatype Verdict = Verdict(isMatch: bool, message: string)

  const Matched := "Password matches"
  const NotMatched := "Password does not match"

  function VerdictOf(isMatch: bool): (r: Verdict)
    ensures r.isMatch == isMatch
    ensures r.message == Matched <==> isMatch
  {
    Verdict(isMatch, if isMatch then Matched else NotMatched)
  }

  const Empty := State(map[], map[], map[], map[], 1, 1, 1)

  /** The history rows of entry `id`, oldest first. */
  function HistoryOf(s: State, id: Id): seq<string> {
    if id in s.history then s.history[id] else []
  }

  /** Every value entry `id` has held, oldest first, ending with the current one. */
  function Timeline(s: State, id: Id): seq<string>
    requires id in s.entries
  {
    HistoryOf(s, id) + [s.entries[id].secret]
  }

  /** `s2` differs from `s` at most in entry `id`, its history and the next entry id. */
  predicate OnlyEntryChanged(s: State, s2: State, id: Id) {
    && s2.users == s.users
    && s2.tenants == s.tenants
    && s2.nextUserId == s.nextUserId
    && s2.nextTenantId == s.nextTenantId
    && s2.entries - {id} == s.entries - {id}
    && s2.history - {id} == s.history - {id}
  }

  /** Removing one key from a map keeps every other key and its value. */
  lemma KeptOffKey<K, V>(m: map<K, V>, id: K, k: K)
    requires k in m && k != id
    ensures k in m - {id} && (m - {id})[k] == m[k]
  {
  }

  /** What `OnlyEntryChanged` says of any other entry: it, and its history,
      are as they were. */
  lemma OtherEntryKept(s: State, s2: State, id: Id, k: Id)
    requires OnlyEntryChanged(s, s2, id) && k != id
    ensures k in s2.entries <==> k in s.entries
    ensures k in s.entries ==> s2.entries[k] == s.entries[k]
    ensures HistoryOf(s2, k) == HistoryOf(s, k)
  {
    if k in s.entries { KeptOffKey(s.entries, id, k); }
    if k in s2.entries { KeptOffKey(s2.entries, id, k); }
    if k in s.history { KeptOffKey(s.history, id, k); }
    if k in s2.history { KeptOffKey(s2.history, id, k); }
  }

  /** `s` read back to front: how a list ordered by `createdAt desc` sees rows
      that were appended in order. */
  function Reverse<T>(s: seq<T>): (r: seq<T>)
    ensures |r| == |s|
    ensures forall i :: 0 <= i < |s| ==> r[i] == s[|s| - 1 - i]
  {
    if s == [] then [] else Reverse(s[1..]) + [s[0]]
  }

  /** JavaScript truthiness of a user's tenant id: null and 0 are both falsy. */
  predicate HasTenant(u: User) {
    u.tenantId.Some? && u.tenantId.value != 0
  }

  ghost predicate EmailTaken(s: State, email: string) {
    exists id :: id in s.users && s.users[id].email == email
  }

  /** Every id in use lies between 1 and the next id to be handed out. */
  ghost predicate IdsBelowNext(s: State) {
    && 0 < s.nextUserId && 0 < s.nextTenantId && 0 < s.nextEntryId
    && (forall id :: id in s.users ==> 0 < id < s.nextUserId)
    && (forall id :: id in s.tenants ==> 0 < id < s.nextTenantId)
    && (forall id :: id in s.entries ==> 0 < id < s.nextEntryId)
  }

  /** The database constraints and the invariants every operation keeps:
      unique emails, history rows only for live entries (the foreign key),
      tenants that exist, and every entry filed under its owner's tenant. */
  ghost predicate Valid(s: State) {
    && IdsBelowNext(s)
    && s.history.Keys <= s.entries.Keys
    && (forall a, b :: a in s.users && b in s.users && s.users[a].email == s.users[b].email ==> a == b)
    && (forall id :: id in s.users ==> HasTenant(s.users[id]) && s.users[id].tenantId.value in s.tenants)
    && (forall id :: id in s.entries ==> EntryFiled(s, s.entries[id]))
  }

  /** An entry belongs to an existing user and carries that user's tenant. */
  ghost predicate EntryFiled(s: State, e: Entry) {
    e.userId in s.users && s.users[e.userId].tenantId == Some(e.tenantId)
  }

  /** The lowest key in `[lo, hi)` whose row satisfies `p`: Prisma's
      `findFirst`/`findUnique`, scanning in key order. */
  function FirstKey<T>(m: map<Id, T>, p: T -> bool, lo: Id, hi: Id): (r: Option<Id>)
    decreases hi - lo
    ensures r.Some? ==> lo <= r.value < hi && r.value in m && p(m[r.value])
    ensures r.Some? ==> forall j :: lo <= j < r.value && j in m ==> !p(m[j])
    ensures r.None? ==> forall j :: lo <= j < hi && j in m ==> !p(m[j])
  {
    if hi <= lo then None
    else if lo in m && p(m[lo]) then Some(lo)
    else FirstKey(m, p, lo + 1, hi)
  }

  /** `prisma.user.findUnique({ where: { email } })`. */
  function FindUserByEmail(s: State, email: string): (r: Option<Id>)
    ensures r.Some? ==> r.value in s.users && s.users[r.value].email == email
    ensures r.None? ==> forall id :: id in s.users && id < s.nextUserId ==> s.users[id].email != email
  {
    FirstKey(s.users, (u: User) => u.email == email, 0, s.nextUserId)
  }

  /** In a valid state the lookup by email finds the one account with that
      email exactly when some account has it. */
  lemma FindUserByEmailExact(s: State, email: string)
    requires Valid(s)
    ensures FindUserByEmail(s, email).None? <==> !EmailTaken(s, email)
    ensures EmailTaken(s, email) ==> forall id :: id in s.users && s.users[id].email == email ==> FindUserByEmail(s, email) == Some(id)
  {
  }
}

=== FILE: passwords_controller.dfy ===
/** PasswordsController: every route passes JwtAuthGuard, then
    MasterPasswordGuard, then the global ValidationPipe, before the service
    is called; any service failure is answered with one fixed 500 per route. */
module PasswordsController {
  import opened Wrappers
  import opened Model
  import opened Dto
  import opened Http
  import opened Guards
  import Service = PasswordsService

  /** ValidationPipe's answer to a body with a failing property. */
  const InvalidBody := HttpError(400, "Bad Request")
  const CreateFailed := HttpError(500, "Failed to create password")
  const UpdateFailed := HttpError(500, "Failed to update password")
  const HistoryFailed := HttpError(500, "Failed to fetch password history")
  const VerifyFailed := HttpError(500, "Failed to verify password")
  const DeleteFailed := HttpError(500, "Failed to delete password")

  /** The class-level guard chain, first denial wins. */
  function Authorize(s: State, identity: Option<Principal>): (r: Result<Principal, HttpError>)
    ensures r.Ok? <==> identity.Some? && MasterSet(s, identity.value.id)
    ensures r.Ok? ==> r.value == identity.value
    ensures identity.None? ==> r == Err(TokenRejected)
    ensures identity.Some? && !MasterSet(s, identity.value.id) ==> r == Err(Respond(MasterNotSet))
  {
    var p :- JwtAuthGuard(identity);
    match CanActivate(s, p.id)
    case Err(f) => Err(Respond(f))
    case Ok(_) => Ok(p)
  }

  /** POST /passwords: scoped by the caller's id only. */
  function Create(s: State, identity: Option<Principal>, d: CreateInput): (r: Result<(State, Row), HttpError>)
    ensures r.Ok? ==> Authorize(s, identity).Ok? && ValidCreate(d)
    ensures r.Ok? ==> Ok(r.value) == Service.CreatePassword(s, identity.value.id, d)
    ensures r.Err? ==> r.error in {TokenRejected, Respond(MasterNotSet), InvalidBody, CreateFailed}
    ensures Authorize(s, identity).Err? ==> r == Err(Authorize(s, identity).error)
    ensures Authorize(s, identity).Ok? && !ValidCreate(d) ==> r == Err(InvalidBody)
    ensures Authorize(s, identity).Ok? && ValidCreate(d) && Service.CreatePassword(s, identity.value.id, d).Ok? ==>
      r == Ok(Service.CreatePassword(s, identity.value.id, d).value)
    ensures Authorize(s, identity).Ok? && ValidCreate(d) && Service.CreatePassword(s, identity.value.id, d).Err? ==>
      r == Err(CreateFailed)
  {
    var p :- Authorize(s, identity);
    if CreateViolations(d) != [] then Err(InvalidBody)
    else
      match Service.CreatePassword(s, p.id, d)
      case Ok(v) => Ok(v)
      case Err(_) => Err(CreateFailed)
  }

  /** GET /passwords: scoped by the caller's id only. */
  method List(s: State, identity: Option<Principal>) returns (r: Result<seq<Row>, HttpError>)
    ensures r.Ok? <==> Authorize(s, identity).Ok?
    ensures r.Err? ==> r.error in {TokenRejected, Respond(MasterNotSet)}
    ensures r.Ok? ==> forall row :: row in r.value <==>
      row.id in s.entries && row.entry == s.entries[row.id] && row.entry.userId == identity.value.id
    ensures Authorize(s, identity).Err? ==> r == Err(Authorize(s, identity).error)
    ensures r.Ok? ==> forall i, j :: 0 <= i < j < |r.value| ==> r.value[i].id != r.value[j].id
  {
    var a := Authorize(s, identity);
    if a.Err? {
      return Err(a.error);
    }
    var rows := Service.GetPasswords(s, a.value.id);
    return Ok(rows);
  }

  /** PUT /passwords/:id: scoped by the caller's id and tenant. */
  function Update(s: State, identity: Option<Principal>, id: Id, d: UpdateInput): (r: Result<(State, Row), HttpError>)
    ensures r.Ok? ==> Authorize(s, identity).Ok? && ValidUpdate(d)
    ensures r.Ok? ==> Ok(r.value) == Service.UpdatePassword(s, identity.value.id, identity.value.tenantId, id, d)
    ensures r.Err? ==> r.error in {TokenRejected, Respond(MasterNotSet), InvalidBody, UpdateFailed}
    ensures Authorize(s, identity).Err? ==> r == Err(Authorize(s, identity).error)
    ensures Authorize(s, identity).Ok? && !ValidUpdate(d) ==> r == Err(InvalidBody)
    ensures Authorize(s, identity).Ok? && ValidUpdate(d)
            && Service.UpdatePassword(s, identity.value.id, identity.value.tenantId, id, d).Ok? ==>
      r == Ok(Service.UpdatePassword(s, identity.value.id, identity.value.tenantId, id, d).value)
    ensures Authorize(s, identity).Ok? && ValidUpdate(d)
            && Service.UpdatePassword(s, identity.value.id, identity.value.tenantId, id, d).Err? ==>
      r == Err(UpdateFailed)
  {
    var p :- Authorize(s, identity);
    if UpdateViolations(d) != [] then Err(InvalidBody)
    else
      match Service.UpdatePassword(s, p.id, p.tenantId, id, d)
      case Ok(v) => Ok(v)
      case Err(_) => Err(UpdateFailed)
  }

  /** GET /passwords/:id/history: scoped by the caller's id and tenant. */
  function History(s: State, identity: Option<Principal>, id: Id): (r: Result<seq<string>, HttpError>)
    ensures r.Ok? ==> Authorize(s, identity).Ok?
    ensures r.Ok? ==> Ok(r.value) == Service.GetPasswordHistory(s, id, identity.value.id, identity.value.tenantId)
    ensures r.Err? ==> r.error in {TokenRejected, Respond(MasterNotSet), HistoryFailed}
    ensures Authorize(s, identity).Err? ==> r == Err(Authorize(s, identity).error)
    ensures Authorize(s, identity).Ok? && Service.GetPasswordHistory(s, id, identity.value.id, identity.value.tenantId).Ok? ==> r == Ok(Service.GetPasswordHistory(s, id, identity.value.id, identity.value.tenantId).value)
    ensures Authorize(s, identity).Ok? && Service.GetPasswordHistory(s, id, identity.value.id, identity.value.tenantId).Err? ==> r == Err(HistoryFailed)
  {
    var p :- Authorize(s, identity);
    match Service.GetPasswordHistory(s, id, p.id, p.tenantId)
    case Ok(v) => Ok(v)
    case Err(_) => Err(HistoryFailed)
  }

  /** POST /passwords/:id/verify: scoped by the caller's id and tenant. */
  function Verify(s: State, identity: Option<Principal>, id: Id, candidate: string): (r: Result<Verdict, HttpError>)
    ensures r.Ok? ==> Authorize(s, identity).Ok?
    ensures r.Ok? ==> Ok(r.value) == Service.VerifyPassword(s, id, identity.value.id, identity.value.tenantId, candidate)
    ensures r.Err? ==> r.error in {TokenRejected, Respond(MasterNotSet), VerifyFailed}
    ensures Authorize(s, identity).Err? ==> r == Err(Authorize(s, identity).error)
    ensures Authorize(s, identity).Ok? && Service.VerifyPassword(s, id, identity.value.id, identity.value.tenantId, candidate).Ok? ==> r == Ok(Service.VerifyPassword(s, id, identity.value.id, identity.value.tenantId, candidate).value)
    ensures Authorize(s, identity).Ok? && Service.VerifyPassword(s, id, identity.value.id, identity.value.tenantId, candidate).Err? ==> r == Err(VerifyFailed)
  {
    var p :- Authorize(s, identity);
    match Service.VerifyPassword(s, id, p.id, p.tenantId, candidate)
    case Ok(v) => Ok(v)
    case Err(_) => Err(VerifyFailed)
  }

  /** DELETE /passwords/:id: scoped by the caller's id and tenant. */
  function Delete(s: State, identity: Option<Principal>, id: Id): (r: Result<(State, string), HttpError>)
    ensures r.Ok? ==> Authorize(s, identity).Ok?
    ensures r.Ok? ==> Ok(r.value) == Service.DeletePassword(s, id, identity.value.id, identity.value.tenantId)
    ensures r.Err? ==> r.error in {TokenRejected, Respond(MasterNotSet), DeleteFailed}
    ensures Authorize(s, identity).Err? ==> r == Err(Authorize(s, identity).error)
    ensures Authorize(s, identity).Ok? && Service.DeletePassword(s, id, identity.value.id, identity.value.tenantId).Ok? ==> r == Ok(Service.DeletePassword(s, id, identity.value.id, identity.value.tenantId).value)
    ensures Authorize(s, identity).Ok? && Service.DeletePassword(s, id, identity.value.id, identity.value.tenantId).Err? ==> r == Err(DeleteFailed)
  {
    var p :- Authorize(s, identity);
    match Service.DeletePassword(s, id, p.id, p.tenantId)
    case Ok(v) => Ok(v)
    case Err(_) => Err(DeleteFailed)
  }

  /** The gate chain short-circuits: when either guard denies, every route
      answers with that guard's 401, whatever the body or the entry id. */
  lemma DeniedRoutesNeverReachStore(s: State, identity: Option<Principal>, id: Id, c: CreateInput, u: UpdateInput, candidate: string)
    requires Authorize(s, identity).Err?
    ensures var denial := Authorize(s, identity).error;
      && Create(s, identity, c) == Err(denial)
      && Update(s, identity, id, u) == Err(denial)
      && History(s, identity, id) == Err(denial)
      && Verify(s, identity, id, candidate) == Err(denial)
      && Delete(s, identity, id) == Err(denial)
  {
  }

  /** An entry of another owner is answered as any failure is: with the
      route's 500, never with 401 or 404, and no state change. */
  lemma ForeignEntryIsServerError(s: State, p: Principal, id: Id, u: UpdateInput, candidate: string)
    requires MasterSet(s, p.id) && ValidUpdate(u)
    requires !Service.Owns(s, id, p.id, p.tenantId)
    ensures Update(s, Some(p), id, u) == Err(UpdateFailed)
    ensures History(s, Some(p), id) == Err(HistoryFailed)
    ensures Verify(s, Some(p), id, candidate) == Err(VerifyFailed)
    ensures Delete(s, Some(p), id) == Err(DeleteFailed)
  {
  }
}

=== FILE: passwords_properties.dfy ===
/** Properties of the credential store: the invariant every operation keeps,
    the history timeline, cascade on delete, and owner isolation. */
module PasswordsProperties {
  import opened Wrappers
  import opened Model
  import opened Dto
  import opened PasswordsService

  /** The user's tenant, which `Valid` guarantees is set. */
  function TenantOf(s: State, userId: Id): Id
    requires userId in s.users && s.users[userId].tenantId.Some?
  {
    s.users[userId].tenantId.value
  }

  ghost predicate AnySelected(s: State, q: Lookup) {
    exists j :: j in s.entries && Selects(q, s.entries[j])
  }

  /** createPassword's two branches. When some entry of the user and tenant
      matches, the first one is versioned: its old secret becomes a history
      row and nothing but the secret changes. Otherwise a fresh entry is
      created with the next id and no history. */
  lemma CreateBranches(s: State, userId: Id, d: CreateInput)
    requires Valid(s) && userId in s.users
    ensures CreatePassword(s, userId, d).Ok?
    ensures
      var (s2, Row(id, e)) := CreatePassword(s, userId, d).value;
      var q := LookupFor(userId, TenantOf(s, userId), d);
      if AnySelected(s, q) then
        && id in s.entries && Selects(q, s.entries[id])
        && (forall j :: j in s.entries && j < id ==> !Selects(q, s.entries[j]))
        && e == s.entries[id].(secret := d.password)
        && HistoryOf(s2, id) == HistoryOf(s, id) + [s.entries[id].secret]
        && s2.nextEntryId == s.nextEntryId
      else
        && id == s.nextEntryId && id !in s.entries
        && e == Entry(TenantOf(s, userId), userId, d.category, d.name, d.url, d.accountName, d.password)
        && HistoryOf(s2, id) == []
        && s2.nextEntryId == id + 1
  {
  }

  lemma CreatePreservesValid(s: State, userId: Id, d: CreateInput)
    requires Valid(s)
    ensures CreatePassword(s, userId, d).Ok? ==> Valid(CreatePassword(s, userId, d).value.0)
  {
  }

  lemma UpdatePreservesValid(s: State, userId: Id, tenantId: Id, id: Id, d: UpdateInput)
    requires Valid(s)
    ensures UpdatePassword(s, userId, tenantId, id, d).Ok? ==> Valid(UpdatePassword(s, userId, tenantId, id, d).value.0)
  {
  }

  lemma DeletePreservesValid(s: State, userId: Id, tenantId: Id, id: Id)
    requires Valid(s)
    ensures DeletePassword(s, userId, tenantId, id).Ok? ==> Valid(DeletePassword(s, userId, tenantId, id).value.0)
  {
  }

  /** Two create bodies that name the same logical entry. */
  predicate SameKey(a: CreateInput, b: CreateInput) {
    a.category == b.category && a.name == b.name && a.url == b.url && a.accountName == b.accountName
  }

  /** createPassword called once per body, in order, by the same user. */
  ghost function CreateAll(s: State, userId: Id, ds: seq<CreateInput>): Result<(State, Row), Failure>
    requires |ds| > 0
    decreases |ds|
  {
    if |ds| == 1 then CreatePassword(s, userId, ds[0])
    else
      match CreateAll(s, userId, ds[..|ds| - 1])
      case Err(f) => Err(f)
      case Ok((s1, _)) => CreatePassword(s1, userId, ds[|ds| - 1])
  }

  function Secrets(ds: seq<CreateInput>): seq<string> {
    seq(|ds|, i requires 0 <= i < |ds| => ds[i].password)
  }

  lemma SecretsSnoc(ds: seq<CreateInput>)
    requires |ds| > 0
    ensures Secrets(ds) == Secrets(ds[..|ds| - 1]) + [ds[|ds| - 1].password]
  {
  }

  /** One more write of an entry that is the only one the lookup selects:
      that entry is versioned and its timeline grows by the new value. */
  lemma VersionOnlyMatch(s: State, userId: Id, d: CreateInput, id: Id)
    requires Valid(s) && userId in s.users && id in s.entries
    requires var q := LookupFor(userId, TenantOf(s, userId), d);
      Selects(q, s.entries[id]) && forall j :: j in s.entries && j != id ==> !Selects(q, s.entries[j])
    ensures CreatePassword(s, userId, d).Ok?
    ensures
      var (s2, row) := CreatePassword(s, userId, d).value;
      && row.id == id
      && Timeline(s2, id) == Timeline(s, id) + [d.password]
      && Valid(s2) && s2.users == s.users
      && s2.entries - {id} == s.entries - {id}
      && s2.entries[id] == s.entries[id].(secret := d.password)
  {
  }

  /** What a run of writes of one logical entry leaves behind, starting from
      `s` where nothing matched: the entry created with the next id, holding
      the timeline `values`, and every other entry as it was. */
  ghost predicate Written(s: State, userId: Id, q: Lookup, values: seq<string>, s2: State, row: Row)
    requires userId in s.users
  {
    && row.id == s.nextEntryId && row.id in s2.entries
    && s2.entries[row.id] == row.entry
    && Timeline(s2, row.id) == values
    && Valid(s2) && s2.users == s.users
    && s2.entries - {row.id} == s.entries
    && Selects(q, s2.entries[row.id])
  }

  lemma FirstWrite(s: State, userId: Id, d: CreateInput)
    requires Valid(s) && userId in s.users
    requires !AnySelected(s, LookupFor(userId, TenantOf(s, userId), d))
    ensures CreatePassword(s, userId, d).Ok?
    ensures Written(s, userId, LookupFor(userId, TenantOf(s, userId), d), [d.password],
                    CreatePassword(s, userId, d).value.0, CreatePassword(s, userId, d).value.1)
  {
  }

  lemma NextWrite(s: State, userId: Id, q: Lookup, values: seq<string>, s1: State, row1: Row, d: CreateInput)
    requires Valid(s) && userId in s.users
    requires Written(s, userId, q, values, s1, row1)
    requires !AnySelected(s, q)
    requires LookupFor(userId, TenantOf(s1, userId), d) == q
    ensures CreatePassword(s1, userId, d).Ok?
    ensures Written(s, userId, q, values + [d.password],
                    CreatePassword(s1, userId, d).value.0, CreatePassword(s1, userId, d).value.1)
  {
    var E := row1.id;
    forall j | j in s1.entries && j != E
      ensures !Selects(q, s1.entries[j])
    {
      KeptOffKey(s1.entries, E, j);
    }
    VersionOnlyMatch(s1, userId, d, E);
    var (s2, row) := CreatePassword(s1, userId, d).value;
    assert s2.entries - {E} == s.entries by {
      assert s2.entries - {E} == s1.entries - {E};
    }
  }

  /** Writing the same logical entry again and again: the first call creates
      it, every later call versions that same entry, and its timeline is
      exactly the values written, in order. So the current secret is the last
      one written and the history holds every earlier one, none lost and none
      repeated. */
  lemma {:induction false} RepeatedCreateTimeline(s: State, userId: Id, ds: seq<CreateInput>)
    requires Valid(s) && userId in s.users
    requires |ds| > 0 && forall i :: 0 <= i < |ds| ==> SameKey(ds[i], ds[0])
    requires !AnySelected(s, LookupFor(userId, TenantOf(s, userId), ds[0]))
    ensures CreateAll(s, userId, ds).Ok?
    ensures Written(s, userId, LookupFor(userId, TenantOf(s, userId), ds[0]), Secrets(ds),
                    CreateAll(s, userId, ds).value.0, CreateAll(s, userId, ds).value.1)
  {
    var q := LookupFor(userId, TenantOf(s, userId), ds[0]);
    var n := |ds|;
    if n == 1 {
      FirstWrite(s, userId, ds[0]);
      assert Secrets(ds) == [ds[0].password];
    } else {
      var pre := ds[..n - 1];
      var d := ds[n - 1];
      assert pre[0] == ds[0] && SameKey(d, ds[0]);
      assert forall i :: 0 <= i < |pre| ==> SameKey(pre[i], pre[0]) by {
        forall i | 0 <= i < |pre| ensures SameKey(pre[i], pre[0]) {
          assert pre[i] == ds[i];
        }
      }
      RepeatedCreateTimeline(s, userId, pre);
      var r1 := CreateAll(s, userId, pre);
      var s1 := r1.value.0;
      assert CreateAll(s, userId, ds) == CreatePassword(s1, userId, d);
      NextWrite(s, userId, q, Secrets(pre), s1, r1.value.1, d);
      SecretsSnoc(ds);
    }
  }

  /** After a delete the entry is gone for every owner-scoped operation: each
      reports "Password not found". */
  lemma DeleteThenNotFound(s: State, id: Id, userId: Id, tenantId: Id, candidate: string, d: UpdateInput)
    requires Owns(s, id, userId, tenantId)
    ensures
      var s2 := DeletePassword(s, id, userId, tenantId).value.0;
      && GetPasswordHistory(s2, id, userId, tenantId) == Err(NotFound)
      && VerifyPassword(s2, id, userId, tenantId, candidate) == Err(NotFound)
      && UpdatePassword(s2, userId, tenantId, id, d) == Err(NotFound)
      && DeletePassword(s2, id, userId, tenantId) == Err(NotFound)
      && HistoryOf(s2, id) == []
  {
  }

  /** A value the entry held before, but no longer holds, does not verify. */
  lemma SupersededValueDoesNotVerify(s: State, id: Id, userId: Id, tenantId: Id, prior: string)
    requires Owns(s, id, userId, tenantId)
    requires prior in HistoryOf(s, id) && prior != s.entries[id].secret
    ensures VerifyPassword(s, id, userId, tenantId, prior) == Ok(Verdict(false, NotMatched))
  {
  }

  /** An entry the caller does not own answers exactly as a missing one:
      whichever of the four owner-scoped operations is asked. */
  lemma ForeignLooksMissing(s: State, id: Id, userId: Id, tenantId: Id, missing: Id, candidate: string, d: UpdateInput)
    requires id in s.entries && !Owns(s, id, userId, tenantId)
    requires missing !in s.entries
    ensures UpdatePassword(s, userId, tenantId, id, d) == UpdatePassword(s, userId, tenantId, missing, d)
    ensures GetPasswordHistory(s, id, userId, tenantId) == GetPasswordHistory(s, missing, userId, tenantId)
    ensures VerifyPassword(s, id, userId, tenantId, candidate) == VerifyPassword(s, missing, userId, tenantId, candidate)
    ensures DeletePassword(s, id, userId, tenantId) == DeletePassword(s, missing, userId, tenantId)
  {
  }

  /** Entries of other owners survive every write by (userId, tenantId)
      unchanged, along with their history. */
  lemma ForeignEntriesUntouched(s: State, userId: Id, tenantId: Id, id: Id, k: Id, c: CreateInput, d: UpdateInput)
    requires Valid(s) && k in s.entries && s.entries[k].userId != userId
    ensures CreatePassword(s, userId, c).Ok? ==>
      var s2 := CreatePassword(s, userId, c).value.0;
      k in s2.entries && s2.entries[k] == s.entries[k] && HistoryOf(s2, k) == HistoryOf(s, k)
    ensures UpdatePassword(s, userId, tenantId, id, d).Ok? ==>
      var s2 := UpdatePassword(s, userId, tenantId, id, d).value.0;
      k in s2.entries && s2.entries[k] == s.entries[k] && HistoryOf(s2, k) == HistoryOf(s, k)
    ensures DeletePassword(s, id, userId, tenantId).Ok? ==>
      var s2 := DeletePassword(s, id, userId, tenantId).value.0;
      k in s2.entries && s2.entries[k] == s.entries[k] && HistoryOf(s2, k) == HistoryOf(s, k)
  {
  }

  /** When the body supplies both url and accountName, the lookup selects
      exactly the entries with the full identity tuple. */
  lemma FullTupleLookup(userId: Id, tenantId: Id, d: CreateInput, e: Entry)
    requires d.url.Some? && d.accountName.Some?
    ensures Selects(LookupFor(userId, tenantId, d), e) <==>
      (e.userId, e.tenantId, e.category, e.name, e.url, e.accountName)
      == (userId, tenantId, d.category, d.name, d.url, d.accountName)
  {
  }

  /** A body without a url versions an entry stored with one: the lookup is
      not the full identity tuple when optional fields are left out. */
  lemma AbsentUrlVersionsStoredUrl()
    ensures
      var u := User("a@x.com", "A", "h", Some(1));
      var e := Entry(1, 1, "device", "router", Some("http://r"), None, "abc");
      var s := State(map[1 := u], map[1 := Tenant("t")], map[1 := e], map[], 2, 2, 2);
      var d := CreateInput("device", "router", None, None, "xyz");
      CreatePassword(s, 1, d).Ok? && CreatePassword(s, 1, d).value.1 == Row(1, e.(secret := "xyz"))
  {
  }
}

=== FILE: passwords_service.dfy ===
/** PasswordsService: the versioned credential store. Each `$transaction` of
    the source is one state step; a failed call returns `Err` and leaves the
    caller holding the state it started with. */
module PasswordsService {
  import opened Wrappers
  import opened Model
  import opened Dto

  const UserNotFound := BadRequest("User not found")
  const NoTenant := BadRequest("User has no tenant assigned")
  const NotFound := BadRequest("Password not found")
  const DeletedMessage := "Password and its history deleted successfully"

  /** The where-clause createPassword uses to find "the same" entry. */
  datatype Lookup = Lookup(
    userId: Id,
    tenantId: Id,
    category: string,
    name: string,
    url: Option<string>,
    accountName: Option<string>)

  function LookupFor(userId: Id, tenantId: Id, d: CreateInput): Lookup {
    Lookup(userId, tenantId, d.category, d.name, d.url, d.accountName)
  }

  /** Whether the where-clause selects `e`. Prisma drops a filter whose value
      is undefined, so an absent url or accountName selects any stored value. */
  predicate Selects(q: Lookup, e: Entry) {
    && e.userId == q.userId
    && e.tenantId == q.tenantId
    && e.category == q.category
    && e.name == q.name
    && (q.url.None? || e.url == q.url)
    && (q.accountName.None? || e.accountName == q.accountName)
  }

  /** `prisma.password.findFirst` with the lookup, first in id order. */
  function FindExisting(s: State, q: Lookup): (r: Option<Id>)
    ensures r.Some? ==> r.value in s.entries && Selects(q, s.entries[r.value])
    ensures r.Some? ==> forall j :: j in s.entries && j < r.value ==> !Selects(q, s.entries[j])
    ensures r.None? ==> forall j :: j in s.entries && j < s.nextEntryId ==> !Selects(q, s.entries[j])
  {
    FirstKey(s.entries, (e: Entry) => Selects(q, e), 0, s.nextEntryId)
  }

  /** The ownership check shared by update, history, verify and delete: the
      entry exists and is filed under this user and this tenant. */
  predicate Owns(s: State, id: Id, userId: Id, tenantId: Id) {
    id in s.entries && s.entries[id].userId == userId && s.entries[id].tenantId == tenantId
  }

  /** One versioning transaction: entry `id`'s current secret becomes its
      newest history row, then `e` is stored under the same id. */
  function Supersede(s: State, id: Id, e: Entry): (r: State)
    requires id in s.entries
    ensures OnlyEntryChanged(s, r, id) && r.nextEntryId == s.nextEntryId
    ensures r.entries == s.entries[id := e]
    ensures Timeline(r, id) == Timeline(s, id) + [e.secret]
  {
    s.(history := s.history[id := HistoryOf(s, id) + [s.entries[id].secret]],
       entries := s.entries[id := e])
  }

  /** getPasswords: every entry the user owns, in no particular order (the
      query has no orderBy). Entries are not filtered by tenant. */
  method GetPasswords(s: State, userId: Id) returns (r: seq<Row>)
    ensures forall row :: row in r <==> row.id in s.entries && row.entry == s.entries[row.id] && row.entry.userId == userId
    ensures forall i, j :: 0 <= i < j < |r| ==> r[i].id != r[j].id
  {
    r := [];
    var todo := s.entries.Keys;
    while todo != {}
      invariant todo <= s.entries.Keys
      invariant forall row :: row in r ==> row.id in s.entries && row.entry == s.entries[row.id] && row.entry.userId == userId
      invariant forall id :: id in s.entries.Keys - todo && s.entries[id].userId == userId ==> Row(id, s.entries[id]) in r
      invariant forall i :: 0 <= i < |r| ==> r[i].id !in todo
      invariant forall i, j :: 0 <= i < j < |r| ==> r[i].id != r[j].id
      decreases todo
    {
      var id :| id in todo;
      if s.entries[id].userId == userId {
        r := r + [Row(id, s.entries[id])];
      }
      todo := todo - {id};
    }
  }

  /** createPassword: version the entry the lookup finds, or create one. */
  function CreatePassword(s: State, userId: Id, d: CreateInput): (r: Result<(State, Row), Failure>)
    ensures userId !in s.users ==> r == Err(UserNotFound)
    ensures userId in s.users && !HasTenant(s.users[userId]) ==> r == Err(NoTenant)
    ensures r.Ok? <==> userId in s.users && HasTenant(s.users[userId])
    ensures r.Ok? ==>
      var (s2, Row(id, e)) := r.value;
      && id in s2.entries && s2.entries[id] == e
      && e.userId == userId && s.users[userId].tenantId == Some(e.tenantId)
      && e.category == d.category && e.name == d.name
      && (d.url.Some? ==> e.url == d.url)
      && (d.accountName.Some? ==> e.accountName == d.accountName)
      && e.secret == d.password
      && OnlyEntryChanged(s, s2, id)
  {
    if userId !in s.users then Err(UserNotFound)
    else
      var u := s.users[userId];
      if !HasTenant(u) then Err(NoTenant)
      else
        match FindExisting(s, LookupFor(userId, u.tenantId.value, d))
        case Some(id) =>
          var e := s.entries[id].(secret := d.password);
          Ok((Supersede(s, id, e), Row(id, e)))
        case None =>
          var id := s.nextEntryId;
          var e := Entry(u.tenantId.value, userId, d.category, d.name, d.url, d.accountName, d.password);
          Ok((s.(entries := s.entries[id := e], nextEntryId := id + 1), Row(id, e)))
  }

  /** The entry after an update body is applied: the secret always, and each
      of name, url and accountName only when supplied. */
  function Apply(e: Entry, d: UpdateInput): (r: Entry)
    ensures r.userId == e.userId && r.tenantId == e.tenantId && r.category == e.category
    ensures r.secret == d.password
    ensures r.name == (if d.name.Some? then d.name.value else e.name)
    ensures r.url == (if d.url.Some? then d.url else e.url)
    ensures r.accountName == (if d.accountName.Some? then d.accountName else e.accountName)
  {
    e.(name := d.name.GetOr(e.name),
       url := if d.url.Some? then d.url else e.url,
       accountName := if d.accountName.Some? then d.accountName else e.accountName,
       secret := d.password)
  }

  /** updatePassword: ownership check, then one versioning transaction. */
  function UpdatePassword(s: State, userId: Id, tenantId: Id, id: Id, d: UpdateInput): (r: Result<(State, Row), Failure>)
    ensures r.Err? <==> !Owns(s, id, userId, tenantId)
    ensures r.Err? ==> r.error == NotFound
    ensures r.Ok? ==>
      var (s2, row) := r.value;
      && row == Row(id, Apply(s.entries[id], d)) && id in s2.entries && s2.entries[id] == row.entry
      && Timeline(s2, id) == Timeline(s, id) + [d.password]
      && OnlyEntryChanged(s, s2, id) && s2.nextEntryId == s.nextEntryId
  {
    if !Owns(s, id, userId, tenantId) then Err(NotFound)
    else
      var e := Apply(s.entries[id], d);
      Ok((Supersede(s, id, e), Row(id, e)))
  }

  /** getPasswordHistory: the entry's superseded values, newest first. */
  function GetPasswordHistory(s: State, id: Id, userId: Id, tenantId: Id): (r: Result<seq<string>, Failure>)
    ensures r.Err? <==> !Owns(s, id, userId, tenantId)
    ensures r.Err? ==> r.error == NotFound
    ensures r.Ok? ==> |r.value| == |HistoryOf(s, id)|
    ensures r.Ok? ==> forall i :: 0 <= i < |r.value| ==> r.value[i] == HistoryOf(s, id)[|r.value| - 1 - i]
  {
    if !Owns(s, id, userId, tenantId) then Err(NotFound)
    else Ok(Reverse(HistoryOf(s, id)))
  }

  /** verifyPassword: a plain equality test against the current secret. */
  function VerifyPassword(s: State, id: Id, userId: Id, tenantId: Id, candidate: string): (r: Result<Verdict, Failure>)
    ensures r.Err? <==> !Owns(s, id, userId, tenantId)
    ensures r.Err? ==> r.error == NotFound
    ensures r.Ok? ==> (r.value.isMatch <==> candidate == s.entries[id].secret)
    ensures r.Ok? ==> r.value.message == (if r.value.isMatch then Matched else NotMatched)
  {
    if !Owns(s, id, userId, tenantId) then Err(NotFound)
    else Ok(VerdictOf(candidate == s.entries[id].secret))
  }

  /** deletePassword: the entry's history rows, then the entry, in one transaction. */
  function DeletePassword(s: State, id: Id, userId: Id, tenantId: Id): (r: Result<(State, string), Failure>)
    ensures r.Err? <==> !Owns(s, id, userId, tenantId)
    ensures r.Err? ==> r.error == NotFound
    ensures r.Ok? ==>
      var (s2, msg) := r.value;
      && msg == DeletedMessage
      && id !in s2.entries && id !in s2.history
      && s2.entries.Keys == s.entries.Keys - {id}
      && OnlyEntryChanged(s, s2, id) && s2.nextEntryId == s.nextEntryId
  {
    if !Owns(s, id, userId, tenantId) then Err(NotFound)
    else Ok((s.(history := s.history - {id}, entries := s.entries - {id}), DeletedMessage))
  }
}

=== FILE: scenarios.dfy ===
/** Whole request sequences through the controllers, from the empty database
    or from any valid one. */
module Scenarios {
  import opened Wrappers
  import opened Model
  import opened Dto
  import opened Crypto
  import opened Http
  import opened Guards
  import AuthService
  import AuthController
  import PasswordsService
  import opened PasswordsController

  /** Register alice, store a router password, store it again with a new
      value, then delete it: the second write versions the first entry with
      the old value as its only history row, and after the delete the history
      is gone (the service says "Password not found", the route a 500). */
  lemma RouterScenario(c: Primitives)
    requires Sound(c)
    ensures
      var r0 := AuthController.Register(Empty, c, "alice@x.com", "pw1", "Alice");
      && r0.Ok?
      && var (s1, reg) := r0.value;
      var p := Principal(reg.user.id, reg.user.tenantId.value);
      var r1 := Create(s1, Some(p), CreateInput("device", "router", None, None, "abc"));
      && r1.Ok?
      && var (s2, row) := r1.value;
      && row.entry.secret == "abc" && HistoryOf(s2, row.id) == []
      && var r2 := Create(s2, Some(p), CreateInput("device", "router", None, None, "xyz"));
      && r2.Ok?
      && var (s3, row2) := r2.value;
      && row2.id == row.id && row2.entry.secret == "xyz"
      && History(s3, Some(p), row.id) == Ok(["abc"])
      && var r3 := Delete(s3, Some(p), row.id);
      && r3.Ok?
      && PasswordsService.GetPasswordHistory(r3.value.0, row.id, p.id, p.tenantId) == Err(PasswordsService.NotFound)
      && History(r3.value.0, Some(p), row.id) == Err(HistoryFailed)
  {
    var (s1, reg) := AuthService.Register(Empty, c, "alice@x.com", "pw1", "Alice").value;
    var p := Principal(reg.user.id, reg.user.tenantId.value);
    assert s1.users[1].password == c.hash("pw1");
    var d1 := CreateInput("device", "router", None, None, "abc");
    var d2 := CreateInput("device", "router", None, None, "xyz");
    assert ValidCreate(d1) && ValidCreate(d2);
    var q := PasswordsService.LookupFor(1, 1, d1);
    assert PasswordsService.FindExisting(s1, q) == None;
    var (s2, row) := PasswordsService.CreatePassword(s1, 1, d1).value;
    assert row.id == 1;
    assert PasswordsService.FindExisting(s2, q) == Some(1) by {
      assert FirstKey(s2.entries, (e: Entry) => PasswordsService.Selects(q, e), 0, 2)
          == FirstKey(s2.entries, (e: Entry) => PasswordsService.Selects(q, e), 1, 2);
    }
    var (s3, row2) := PasswordsService.CreatePassword(s2, 1, d2).value;
    assert HistoryOf(s3, 1) == ["abc"];
    assert Reverse(["abc"]) == ["abc"];
  }

  /** An account created by Google sign-in is refused by the vault's guard
      chain, and so by every vault route, until it sets a master password;
      right after setting one the chain lets it through and a valid create
      request succeeds. */
  lemma GoogleAccountLockedUntilSetup(s: State, c: Primitives, g: AuthService.GoogleProfile, d: CreateInput, master: string)
    requires Valid(s) && Sound(c) && !EmailTaken(s, g.email)
    requires ValidCreate(d) && master != ""
    ensures AuthService.GoogleLogin(s, c, Some(g)).Ok?
    ensures
      var (s1, res) := AuthService.GoogleLogin(s, c, Some(g)).value;
      var p := Principal(res.user.id, res.user.tenantId.value);
      && Authorize(s1, Some(p)) == Err(Respond(MasterNotSet))
      && Create(s1, Some(p), d) == Err(Respond(MasterNotSet))
      && AuthController.SetupMasterPassword(s1, c, p.id, Some(master)).Ok?
      && var s2 := AuthController.SetupMasterPassword(s1, c, p.id, Some(master)).value.0;
      && Authorize(s2, Some(p)) == Ok(p)
      && Create(s2, Some(p), d).Ok?
  {
  }
}

=== FILE: wrappers.dfy ===
/** Option and Result, the failure-compatible wrappers every operation of the model returns. */
module Wrappers {

  datatype Option<+T> = None | Some(value: T) {

    /** The wrapped value, or `default` when there is none. */
    function GetOr(default: T): T {
      match this
      case Some(v) => v
      case None => default
    }
  }

  /** The outcome of a service call: a value, or the exception it throws. */
  datatype Result<+T, +E> = Ok(value: T) | Err(error: E) {

    predicate IsFailure() {
      Err?
    }

    function PropagateFailure<U>(): Result<U, E>
      requires Err?
    {
      Err(error)
    }

    function Extract(): T
      requires Ok?
    {
      value
    }
  }
}
